=== FILE: README.md ===
# stor client download core, modelled in Dafny

This project models the download core of the stor client, a Go library. The
client fetches content-addressed blobs (named by their SHA-256 digest) from a
stor HTTP service and stores them as verified local files.

The model covers:

- `New`, which turns zero and sentinel options into defaults (`options.dfy`).
- The names derived from a digest: the filename and the download URL (`naming.dfy`).
- One download attempt (`fetch.dfy`): the status check, the digest check, the
  discard sink, and the temp-file commit protocol over an abstract filesystem.
- The retry rule: 404 is permanent, everything else is retried up to the
  attempt bound (`retry.dfy`).
- The in-flight set of digests a worker has claimed (`inflight.dfy`).
- One iteration of a download worker (`worker.dfy`).
- The client's life cycle (`pool.dfy`): `Download`, the stop markers sent by
  `Wait`, the workers draining the queue, the stats fold and `Status`.

Goroutines and channels become a sequential schedule. A FIFO queue is consumed
item by item by whichever worker is still alive. A stop marker ends one worker.

Outside collaborators become parameters:

- SHA-256 is an uninterpreted `Hasher`.
- `pathutil.NewPath` is a validity predicate on path strings.
- The server's replies and the filesystem faults of every attempt are an
  `ItemEnv` script, indexed by URL and attempt number.
- Wall-clock durations are natural-number inputs.

The digest type itself is not part of this model. Its string form is modelled
as lower-case hexadecimal. Its zero value, the stop marker `workerEnd`, is the
digest with no bytes.

Three names differ between client/client.go and client/download.go. The model
follows download.go:

- download.go passes `client.RetryAttempts` to the retry loop, while
  client.go declares and normalises `RetryTries`. The model has one field,
  `retryAttempts`, set by `New` from `RetryTries`.
- `UpperCase` and `Suffix` are read by the worker but never assigned by `New`.
  The model keeps them as client fields that `New` leaves at Go's zero value.
- `Start` passes three arguments to a four-parameter `downloadWorker`. The
  model's worker takes the transport as its script.

The type of `currentDownloads` is not part of this model. The worker skips
when `ContainsOrAdd` returns false, so the model reads it as "true when the
digest was absent and has now been added".

## Model

| member | source | states |
|---|---|---|
| Options.New | client/client.go:82-112 | `Max` 0 becomes 4, other values are kept (negative too). `Timeout` -1 becomes 0 (no timeout), 0 becomes 30 s, others are kept. `RetryDelay` 0 becomes 100 ms and `RetryTries` 0 becomes 10. `Devnull` is copied. The resulting pool size and attempt bound are never zero. |
| Options.NewIdempotentUnlessNoTimeout | client/client.go:93-98 | Feeding a client's own settings back through `New` reproduces the client exactly when the caller did not ask for "no timeout". The stored 0 reads back as "use the default". |
| Naming.Hex | client/download.go:57 | The digest's string form has two characters per byte, all lower-case hex digits. |
| Naming.HexInjective | client/download.go:57 | Two digests with the same string form are the same digest. |
| Naming.ToUpperHexRoundTrip | client/download.go:58-60 | Upper-casing a hex string leaves no lower-case letter, and lower-casing gives the original back. |
| Naming.Filename | client/download.go:57-62 | The filename has two characters per digest byte followed by `Suffix` unchanged. Lower-casing those characters gives the digest's string form back, whichever case `UpperCase` chose. |
| Naming.FilenameShape | client/download.go:57-62 | The filename is the digest's hex digits followed by `Suffix`. Its letters are lower-case exactly when `UpperCase` is unset. |
| Naming.FilenameInjective | client/download.go:57-64 | Different digests get different filenames under the same options, so workers on different digests never share a target path. |
| Naming.TrimRight | client/download.go:163 | The result is a prefix of the input with no trailing `/`. Everything removed was `/`. |
| Naming.CreateUrl | client/download.go:161-166 | Cutting the URL at its last `/` gives the storage URL without its trailing slashes, and the digest's string form. |
| Naming.CreateUrlShape | client/download.go:161-166 | The URL is the storage URL with all trailing slashes removed, exactly one `/`, and the digest string. Splitting at the last `/` gives both parts back. |
| Fetch.DownloadToWriter | client/download.go:220-253 | Success happens exactly when the status is 200, the body streams completely and its hash equals the expected digest. The size is then the number of bytes written. A non-200 status gives a `downloadError` carrying that status with nothing written. A wrong hash gives a mismatch error. Every error has size 0. |
| Fetch.DownloadToDevnull | client/download.go:168-170 | Same checks as a written download, nothing kept. On success the size is the body length, on error 0. |
| Fetch.CleanUp | client/download.go:178-185 | The deferred cleanup always reports an error of size 0 and touches no other path. When the temp file exists and can be removed, it is removed and the original error is kept. Otherwise the filesystem is unchanged and the cleanup error replaces the original one. |
| Fetch.ViaTempFile | client/download.go:172-203 | Success happens exactly when every check and filesystem step succeeds. Then the target holds the verified body, the size is its length, and no temp file is left. On failure the target is untouched, the size is 0, and the temp file is gone unless removing it failed. Only the target and `<target>.temp` ever change, and the target changes only to content hashing to the expected digest. A 404 stays a 404 when the temp file can be handled. When the temp file cannot be opened or removed, any failure is reported as the cleanup error instead, so such a 404 is retried. |
| Fetch.FetchOnce | client/download.go:102-106 | The attempt function chooses the discard sink (filesystem unchanged) or the temp-file protocol. Success implies a verified response. A reported download error is the server's own status. |
| Retry.RetryIf | client/download.go:117-126 | A download error with status 404 is permanent. Every other error is retried: other statuses, transport, stream, digest mismatch and filesystem errors. Its consequences are stated by `Retry.DoFrom` and `Worker.NotFoundFailsAfterOneFetch`. |
| Retry.DoFrom | client/download.go:98-130 | The attempt function runs between 1 and `Attempts` times. Only the last call may succeed. Every earlier error was retryable. Stopping before the bound happens only on a 404. A successful first call ends the loop with its size and state. A 404 on the first call ends it after one call. The errors collected are exactly those the calls made returned, in order. A success reports the size and state of the call that succeeded. |
| Retry.Do | client/download.go:98-130 | With a bound of 0 nothing runs and the loop fails. Otherwise it runs between 1 and `Attempts` calls. It succeeds exactly when one of the calls it made returned no error. |
| Retry.ExhaustsAttempts | client/download.go:117-128 | When every call fails with a retryable error, the loop fails after exactly the configured number of attempts. |
| Retry.OkIffSomeCallSucceeded | client/download.go:98-130 | The loop reports success exactly when one of the calls it ran returned no error. |
| InFlight.ContainsOrAdd | client/download.go:84 | A claim succeeds exactly when the digest is not yet held, and afterwards it is held. |
| InFlight.Del | client/download.go:133 | A release removes only that digest. |
| InFlight.ClaimThenRelease | client/download.go:84-133 | A successful claim followed by its release restores the set. |
| InFlight.AtMostOneClaim | client/download.go:84-93 | A claimed digest cannot be claimed again until it is released. Releasing another digest does not free it. |
| Worker.TargetPath | client/download.go:57-64 | The target is the download directory, one `/`, and the filename. Its properties are stated by `Worker.TargetPathsDisjoint`. |
| Worker.TargetPathsDisjoint | client/download.go:57-64 | Different digests get different target paths under the same client. No target path is the `.temp` path of any target, its own included. So workers on different digests never touch each other's files. |
| Worker.AttemptFn | client/download.go:99-109 | Call number `n` fetches the digest's URL with the `n`-th scripted reply and faults. It uses the discard sink when `Devnull` is set and the temp-file protocol otherwise. Its effect across all retries is stated by `Worker.FetchFrame`. |
| Worker.WorkerStep | client/download.go:51-148 | Only the stop marker ends the worker, and then no stat is emitted. Every other item emits exactly one stat. An unusable path gives FAIL. An existing file, or a digest another worker holds, gives SKIP without a fetch or any change. A fetching item calls the attempt function at most `RetryAttempts` times and is never skipped. The in-flight set afterwards equals the set before. FAIL and SKIP carry no size or duration. A fetching item is OK exactly when the retry loop succeeded. OK means one of the fetches actually made got a 200 reply with a complete body hashing to the digest, and the reported size is that body's length, with or without `Devnull`. When `Devnull` is unset, the target then holds content of the reported size hashing to the digest. The target only ever receives verified content. |
| Worker.FetchFrame | client/download.go:98-133 | Across all retries, only the target and its temp file change. The target changes only to verified content and is untouched when the item fails. A successful loop's size is the body length of a verified reply to one of the calls it made. |
| Worker.NotFoundFailsAfterOneFetch | client/download.go:117-128 | A 404 on the first attempt fails the item after exactly one fetch, whatever the attempt bound. |
| Worker.UnreachableExhaustsAttempts | client/download.go:98-141 | When the server is never reachable, the item fails after exactly `RetryAttempts` fetches. |
| Worker.DownloadThenSkip | client/download.go:73-147 | A verified 200 reply completes the item with the body's size after one fetch. The same digest afterwards is skipped with no fetch. |
| Pool.Download | client/client.go:147-150 | The expected count grows by exactly one, and the digest is appended to the queue unchanged. |
| Pool.DownloadAllQueues | client/client.go:147-150 | After any series of submissions, the queue holds them in order and the expected count grew by their number. |
| Pool.WorkerCount | client/client.go:125-129 | `Start` runs one worker per id from 0 up to `Max` - 1, so a `Max` of zero or less starts none. The consequence is stated by `Pool.RunCountBound`. |
| Pool.SendEndSignals | client/client.go:163-167 | Exactly one stop marker per started worker is appended behind everything already queued. |
| Pool.WorkerOf | client/download.go:51-148 | The worker loop body of a client obeys the laws the pool relies on: only the stop marker ends a worker, the in-flight set comes back as it was, and only OK carries a size or a duration. |
| Pool.Drain | client/download.go:51-55 | For any worker step obeying those laws: how far the queue is consumed depends only on the queue and the live workers (`Pool.Consumed`), not on what the items do. Each real item consumed yields exactly one stat. The in-flight set is restored. FAIL and SKIP stats carry no size or duration. |
| Pool.ConsumedEndsWorkers | client/download.go:51-55 | Each stop marker taken ends one live worker. No more markers are taken than there are live workers. Once the last live worker has taken its marker, nothing behind it is taken. The queue is left unfinished only when no worker is left. |
| Pool.DrainEndsWorkers | client/download.go:51-55 | The pool's drain obeys the same three facts about stop markers. |
| Pool.DrainAll | client/client.go:163-167 | With the stop markers behind the real items, every real item is consumed and yields one stat before the last worker exits. |
| Pool.ProcessStats | client/client.go:135-144 | The fold's count is the number of stats consumed. Its size and duration are the sums over all of them. It keeps the expected count it was given. |
| Pool.TotalsCountOnlyCompleted | client/download.go:68-147 | Since SKIP and FAIL carry no size or duration, the totals equal those of the OK stats alone. |
| Pool.Status | client/client.go:184-190 | `Status` is true exactly when the stat count equals the expected count carried in the total. What that means for a run is stated by `Pool.StatusCorrected`. |
| Pool.Run | client/client.go:125-161 | One client's life: `Start`, the `Download` calls, then `Wait`, which sends the stop markers, drains the workers and totals their stats. `expected` is the count `processStats` carries. Its outcomes are stated by `Pool.RunCountsEverySubmission`, `Pool.RunCountBound` and `Pool.StatusCorrected`. |
| Pool.RunCountsEverySubmission | client/client.go:125-167 | With at least one worker and no submission equal to the stop marker, the total count equals the number of submissions. |
| Pool.DrainCountBound | client/client.go:155-167 | Whatever the workers do, draining the submissions followed by `k` stop markers emits at most one stat per real submission, and none when `k` is 0. |
| Pool.RunCountBound | client/client.go:125-167 | A run never counts more stats than real submissions, and counts none when no worker was started. |
| Pool.StatusAsWrittenMissesSubmissions | client/client.go:135-136 | As written, if the stats goroutine read the expected count before the last submission, `Status` is false although every item was processed. |
| Pool.StatusAsWrittenCounterexample | client/client.go:185-190 | With default options, one digest and the goroutine scheduled before `Download`, `Status` is false. |
| Pool.StatusCorrected | client/client.go:185-190 | With the count read in `Wait`, `Status` holds exactly when there were no submissions, or at least one worker ran and no submission was the stop marker. |

## Left out

- Goroutines, channels, `sync.WaitGroup`, the 1024-slot channel buffers and their back-pressure: the pool runs as one sequential schedule over a FIFO queue. Thread safety of the in-flight set is not modelled.
- Worker.WorkerStep: it states only that the in-flight set is restored. The window between claim and release, in which other workers see the digest, cannot be observed in a sequential step.
- The HTTP transport, `newHttpClient` and the `Timeout` it uses. `New` normalises `Timeout`, but nothing downstream reads it in this model.
- SHA-256 and the digest type's own parsing and formatting. Hashing is a parameter, and the string form is assumed to be lower-case hex.
- Filesystem faults are scripted per attempt, not per operation. One `removeFails` flag governs both the removal of a stale temp file (client/download.go:187-191) and the deferred cleanup (client/download.go:179-185). So "the stale removal succeeds, then the cleanup removal fails" is not expressible.
- `url.URL`: the storage URL is modelled as the string `storageUrl.String()` produces. URL parsing and formatting are not part of this model.
- `pathutil` internals: path joining is `dir + "/" + name` without cleaning, and `NewPath` is a validity predicate. `Canonpath` is taken to be the path itself. Removing a file that does not exist is treated as an error, as `os.Remove` reports it.
- Close errors of the response body (client/download.go:225-229) and of the temp file (client/download.go:211-215).
- The retry library's delay, back-off units, `OnRetry` logging, and its behaviour for an attempt bound of 0. `New` never produces a bound of 0.
- `downloadError.status`, the reason text; only the status code is kept.
- `TotalStat.Print` and all logging.
- Pool.ProcessStats: it does not model the int64 wrap-around of the size and duration sums. That would take more than 8 EiB or 292 years of summed download time.
- Naming.ToUpperHexRoundTrip: `strings.ToUpper` is modelled on ASCII only. The digest string is always ASCII.

## Findings

| source | as written | input that shows it | evidently intended | confidence | as-written member | corrected member |
|---|---|---|---|---|---|---|
| client/client.go:132-136 | `processStats` copies `expectedDownloadCount` when its goroutine starts. `Start` launches that goroutine before any `Download` call, so it can read any count from 0 up to the final one. | Default options, `Start`, `Download` of one digest, then `Wait`, with the stats goroutine scheduled before `Download`. The count is 1 but the expected count is 0, so `Status()` is false. | Read the expected count in `Wait`, after the last submission. `Status()` is then true when every submitted digest produced a stat. | not executed; the value read depends on goroutine scheduling | Pool.StatusAsWrittenCounterexample | Pool.StatusCorrected |

=== FILE: fetch.dfy ===
/**
 One download attempt (client/download.go): the HTTP status check and the
 digest check of `downloadFileToWriter`, the discard sink of
 `downloadFileToDevnull`, and the temp-file commit protocol of
 `downloadFileViaTempFile`, over an abstract filesystem.
 */
module Fetch {
  import opened Types

  /** What `httpClient.Get` produced: a transport error, or a response whose
      body either streams completely or breaks after the bytes in `body`. */
  datatype Reply =
    | TransportFailure
    | Response(statusCode: int, body: seq<byte>, broken: bool)

  /** Which filesystem operations fail during one attempt. */
  datatype FsFaults = FsFaults(openFails: bool, renameFails: bool, removeFails: bool)

  /** Everything outside the program that one attempt observes. */
  datatype AttemptEnv = AttemptEnv(reply: Reply, faults: FsFaults)

  /** An attempt's `(size, err)` and the bytes it pushed into its writer. */
  datatype Written = Written(attempt: Attempt, written: seq<byte>)

  /** An attempt's `(size, err)` and the filesystem it leaves behind. */
  datatype Committed = Committed(attempt: Attempt, fs: FileSystem)

  /** The response passes both checks: status 200, complete body, digest equal. */
  predicate Verified(hash: Hasher, reply: Reply, expected: Digest)
  {
    reply.Response? && reply.statusCode == 200 && !reply.broken && hash(reply.body) == expected
  }

  /** `downloadFileToWriter` */
  function DownloadToWriter(hash: Hasher, reply: Reply, expected: Digest): (r: Written)
    ensures r.attempt.err.None? <==> Verified(hash, reply, expected)
    ensures r.attempt.err.None? ==> r.attempt.size == |r.written| && hash(r.written) == expected
    ensures r.attempt.err.Some? ==> r.attempt.size == 0
    ensures reply.Response? && reply.statusCode != 200 ==>
              r.attempt.err == Some(DownloadError(expected, reply.statusCode)) && r.written == []
    ensures reply.Response? && reply.statusCode == 200 && !reply.broken && hash(reply.body) != expected ==>
              r.attempt.err == Some(DigestMismatch(hash(reply.body), expected))
    ensures r.written == [] || (reply.Response? && r.written == reply.body)
    ensures r.attempt.err.Some? && r.attempt.err.value.DownloadError? ==>
              reply.Response? && r.attempt.err.value == DownloadError(expected, reply.statusCode)
  {
    match reply
    case TransportFailure => Written(Attempt(0, Some(TransportError)), [])
    case Response(status, body, broken) =>
      if status != 200 then Written(Attempt(0, Some(DownloadError(expected, status))), [])
      else if broken then Written(Attempt(0, Some(StreamError)), body)
      else if hash(body) != expected then Written(Attempt(0, Some(DigestMismatch(hash(body), expected))), body)
      else Written(Attempt(|body|, None), body)
  }

  /** `downloadFileToDevnull`: the same checks, nothing kept. */
  function DownloadToDevnull(hash: Hasher, reply: Reply, expected: Digest): (r: Attempt)
    ensures r.err.None? <==> Verified(hash, reply, expected)
    ensures r.err.None? ==> r.size == |reply.body|
    ensures r.err.Some? ==> r.size == 0
  {
    DownloadToWriter(hash, reply, expected).attempt
  }

  function TempPath(target: Path): Path
  {
    target + ".temp"
  }

  /** `pathutil.Path.Remove`; removing a path that does not exist is an error. */
  function Remove(fs: FileSystem, p: Path, fails: bool): (bool, FileSystem)
  {
    if fails || p !in fs then (false, fs) else (true, fs - {p})
  }

  /** The deferred cleanup of `downloadFileViaTempFile`, run once `err` is set:
      remove the temp file, and if that fails report the removal error instead. */
  function CleanUp(fs: FileSystem, temp: Path, err: Failure, removeFails: bool): (r: Committed)
    ensures r.attempt.size == 0 && r.attempt.err.Some?
    ensures temp !in r.fs || removeFails
    ensures forall p :: p != temp ==> SameAt(fs, r.fs, p)
    // a successful removal keeps the original error; a failed one replaces it
    ensures temp in fs && !removeFails ==> r.attempt.err == Some(err) && r.fs == fs - {temp}
    ensures !(temp in fs && !removeFails) ==> r.attempt.err == Some(TempCleanupError) && r.fs == fs
  {
    var (removed, fs') := Remove(fs, temp, removeFails);
    if removed then Committed(Attempt(0, Some(err)), fs') else Committed(Attempt(0, Some(TempCleanupError)), fs')
  }

  /** Every condition under which the temp-file protocol succeeds. */
  predicate CommitSucceeds(hash: Hasher, validPath: Path -> bool, fs: FileSystem, target: Path,
                           expected: Digest, env: AttemptEnv)
  {
    && validPath(TempPath(target))
    && (TempPath(target) !in fs || !env.faults.removeFails)
    && !env.faults.openFails
    && Verified(hash, env.reply, expected)
    && !env.faults.renameFails
  }

  /** `downloadFileViaTempFile`: clear a stale temp file, stream the body into
      `<target>.temp`, verify it, and only then rename it onto the target. */
  function ViaTempFile(hash: Hasher, validPath: Path -> bool, fs: FileSystem, target: Path,
                       expected: Digest, env: AttemptEnv): (r: Committed)
    // success is exactly the conjunction of every check and every filesystem step
    ensures r.attempt.err.None? <==> CommitSucceeds(hash, validPath, fs, target, expected, env)
    // on success the target holds the verified body, and the temp file is gone
    ensures r.attempt.err.None? ==>
              && target in r.fs && hash(r.fs[target]) == expected
              && r.attempt.size == |r.fs[target]| && r.fs[target] == env.reply.body
              && TempPath(target) !in r.fs
    // on failure the target is untouched, the size is 0, and the temp file is
    // removed unless removal itself fails
    ensures r.attempt.err.Some? ==>
              && r.attempt.size == 0
              && SameAt(fs, r.fs, target)
              && (TempPath(target) !in r.fs || env.faults.removeFails || !validPath(TempPath(target)))
    // nothing but the target and its temp file ever changes
    ensures forall p :: p != target && p != TempPath(target) ==> SameAt(fs, r.fs, p)
    // the target's content changes only to bytes that hash to the expected digest
    ensures !SameAt(fs, r.fs, target) ==> target in r.fs && hash(r.fs[target]) == expected
    // a 404 keeps its identity (and so stays permanent) unless the temp file
    // cannot be handled, in which case the cleanup error replaces it
    ensures && env.reply.Response? && env.reply.statusCode == 404
            && validPath(TempPath(target)) && !env.faults.removeFails && !env.faults.openFails ==>
              r.attempt.err == Some(DownloadError(expected, 404))
    // when the temp file cannot be opened or removed, a failure is reported as
    // the cleanup error, whatever the download itself returned
    ensures (validPath(TempPath(target)) && (env.faults.removeFails || env.faults.openFails)
             && r.attempt.err.Some?) ==> r.attempt.err == Some(TempCleanupError)
    // the only download error it reports is the server's own status
    ensures r.attempt.err.Some? && r.attempt.err.value.DownloadError? ==>
              env.reply.Response? && r.attempt.err.value == DownloadError(expected, env.reply.statusCode)
  {
    var temp := TempPath(target);
    assert temp != target by { assert |temp| == |target| + 5; }
    if !validPath(temp) then Committed(Attempt(0, Some(TempPathError)), fs)
    else
      var (cleared, fs1) := if temp in fs then Remove(fs, temp, env.faults.removeFails) else (true, fs);
      if !cleared then CleanUp(fs1, temp, StaleTempCleanupError, env.faults.removeFails)
      else if env.faults.openFails then CleanUp(fs1, temp, OpenWriterError, env.faults.removeFails)
      else
        var w := DownloadToWriter(hash, env.reply, expected);
        var fs2 := fs1[temp := w.written];
        if w.attempt.err.Some? then CleanUp(fs2, temp, w.attempt.err.value, env.faults.removeFails)
        else if env.faults.renameFails then CleanUp(fs2, temp, RenameError, env.faults.removeFails)
        else Committed(w.attempt, (fs2 - {temp})[target := fs2[temp]])
  }

  /** The attempt function a worker retries: discard or commit via the temp file. */
  function FetchOnce(devnull: bool, hash: Hasher, validPath: Path -> bool, fs: FileSystem,
                     target: Path, expected: Digest, env: AttemptEnv): (r: Committed)
    ensures devnull ==> r.fs == fs
    ensures r.attempt.err.None? ==> Verified(hash, env.reply, expected)
    ensures r.attempt.err.None? ==> devnull || (target in r.fs && hash(r.fs[target]) == expected
                                                && r.attempt.size == |r.fs[target]|)
    ensures r.attempt.err.Some? ==> r.attempt.size == 0 && SameAt(fs, r.fs, target)
    ensures forall p :: p != target && p != TempPath(target) ==> SameAt(fs, r.fs, p)
    ensures !SameAt(fs, r.fs, target) ==> target in r.fs && hash(r.fs[target]) == expected
    ensures r.attempt.err.Some? && r.attempt.err.value.DownloadError? ==>
              env.reply.Response? && r.attempt.err.value == DownloadError(expected, env.reply.statusCode)
  {
    if devnull then Committed(DownloadToDevnull(hash, env.reply, expected), fs)
    else ViaTempFile(hash, validPath, fs, target, expected, env)
  }
}

=== FILE: inflight.dfy ===
/**
 The set of digests some worker is downloading right now (`currentDownloads`
 in client/download.go). Its implementation is not part of this model; the
 worker relies on two operations, modelled here over an immutable set.
 */
module InFlight {
  import opened Types

  /** `ContainsOrAdd`: claim `d`. The first component is true when the digest
      was absent and has now been added (the worker goes on to download), and
      false when another worker already holds it (the worker skips). */
  function ContainsOrAdd(held: set<Digest>, d: Digest): (r: (bool, set<Digest>))
    ensures r.0 <==> d !in held
    ensures d in r.1 && held <= r.1 && r.1 - {d} <= held
  {
    if d in held then (false, held) else (true, held + {d})
  }

  /** `Del`: release `d`; releasing a digest nobody holds changes nothing. */
  function Del(held: set<Digest>, d: Digest): (r: set<Digest>)
    ensures d !in r && r <= held && held - r <= {d}
  {
    held - {d}
  }

  /** A claim followed by its release leaves the set as it was. */
  lemma ClaimThenRelease(held: set<Digest>, d: Digest)
    requires ContainsOrAdd(held, d).0
    ensures Del(ContainsOrAdd(held, d).1, d) == held
  {
  }

  /** Until it is released, a claimed digest cannot be claimed a second time. */
  lemma AtMostOneClaim(held: set<Digest>, d: Digest, other: Digest)
    requires ContainsOrAdd(held, d).0
    ensures !ContainsOrAdd(ContainsOrAdd(held, d).1, d).0
    ensures other != d ==> !ContainsOrAdd(Del(ContainsOrAdd(held, d).1, other), d).0
    ensures ContainsOrAdd(Del(ContainsOrAdd(held, d).1, d), d).0
  {
  }
}

=== FILE: naming.dfy ===
/**
 Names derived from a digest: the local filename a worker writes
 (`downloadWorker`, client/download.go) and the URL it fetches (`createUrl`).
 The digest's string form is its lower-case hexadecimal spelling.
 */
module Naming {
  import opened Types

  const HexDigits: string := "0123456789abcdef"

  predicate IsLowerHex(c: char)
  {
    ('0' <= c <= '9') || ('a' <= c <= 'f')
  }

  predicate IsLowerLetter(c: char)
  {
    'a' <= c <= 'z'
  }

  function HexChar(v: nat): (c: char)
    requires v < 16
    ensures IsLowerHex(c)
  {
    HexDigits[v]
  }

  /** Lower-case hex spelling of a byte string, two characters per byte. */
  function Hex(bs: seq<byte>): (s: string)
    ensures |s| == 2 * |bs|
    ensures forall i :: 0 <= i < |s| ==> IsLowerHex(s[i])
  {
    if |bs| == 0 then ""
    else [HexChar(bs[0] / 16), HexChar(bs[0] % 16)] + Hex(bs[1..])
  }

  /** `sha.String()` */
  function DigestString(d: Digest): string
  {
    Hex(d.bytes)
  }

  lemma HexCharInjective(v: nat, w: nat)
    requires v < 16 && w < 16
    ensures HexChar(v) == HexChar(w) ==> v == w
  {
  }

  lemma HexCons(bs: seq<byte>)
    requires |bs| > 0
    ensures Hex(bs)[0] == HexChar(bs[0] / 16)
    ensures Hex(bs)[1] == HexChar(bs[0] % 16)
    ensures Hex(bs)[2..] == Hex(bs[1..])
  {
    var head := [HexChar(bs[0] / 16), HexChar(bs[0] % 16)];
    assert Hex(bs) == head + Hex(bs[1..]);
    assert (head + Hex(bs[1..]))[2..] == Hex(bs[1..]);
  }

  /** Distinct digests have distinct string forms. */
  lemma {:induction false} HexInjective(a: seq<byte>, b: seq<byte>)
    ensures Hex(a) == Hex(b) ==> a == b
  {
    if Hex(a) == Hex(b) && |a| > 0 {
      assert |b| > 0;
      HexCons(a);
      HexCons(b);
      HexCharInjective(a[0] / 16, b[0] / 16);
      HexCharInjective(a[0] % 16, b[0] % 16);
      HexInjective(a[1..], b[1..]);
      assert a == [a[0]] + a[1..];
      assert b == [b[0]] + b[1..];
    }
  }

  /** ASCII upper-casing of one character (Go's `unicode.ToUpper` restricted to ASCII). */
  function UpperChar(c: char): char
  {
    if IsLowerLetter(c) then (c as int - 32) as char else c
  }

  function LowerChar(c: char): char
  {
    if 'A' <= c <= 'Z' then (c as int + 32) as char else c
  }

  /** `strings.ToUpper` on an ASCII string. */
  function ToUpper(s: string): (r: string)
    ensures |r| == |s|
    ensures forall i :: 0 <= i < |s| ==> r[i] == UpperChar(s[i])
  {
    if |s| == 0 then "" else [UpperChar(s[0])] + ToUpper(s[1..])
  }

  function ToLower(s: string): (r: string)
    ensures |r| == |s|
    ensures forall i :: 0 <= i < |s| ==> r[i] == LowerChar(s[i])
  {
    if |s| == 0 then "" else [LowerChar(s[0])] + ToLower(s[1..])
  }

  lemma UpperCharHex(c: char)
    requires IsLowerHex(c)
    ensures LowerChar(UpperChar(c)) == c
    ensures !IsLowerLetter(UpperChar(c))
  {
  }

  /** Upper-casing loses nothing on a hex string: lower-casing gives it back. */
  lemma ToUpperHexRoundTrip(s: string)
    requires forall i :: 0 <= i < |s| ==> IsLowerHex(s[i])
    ensures ToLower(ToUpper(s)) == s
    ensures forall i :: 0 <= i < |s| ==> !IsLowerLetter(ToUpper(s)[i])
  {
    var u := ToUpper(s);
    forall i | 0 <= i < |s|
      ensures ToLower(u)[i] == s[i] && !IsLowerLetter(u[i])
    {
      UpperCharHex(s[i]);
    }
  }

  /** The filename a worker gives a digest: its string form, upper-cased when
      the client's `UpperCase` is set, followed by the client's `Suffix`. */
  function Filename(upperCase: bool, suffix: string, d: Digest): (r: string)
    // two characters per digest byte, then the suffix unchanged
    ensures |r| == 2 * |d.bytes| + |suffix| && r[2 * |d.bytes|..] == suffix
    // the case choice loses nothing: lower-casing the digits gives the digest's string form
    ensures ToLower(r[..2 * |d.bytes|]) == DigestString(d)
  {
    var s := DigestString(d);
    var digits := if upperCase then ToUpper(s) else s;
    assert ToLower(digits) == s by {
      if upperCase {
        ToUpperHexRoundTrip(s);
      }
    }
    assert (digits + suffix)[..|s|] == digits;
    digits + suffix
  }

  /** The filename ends in the suffix after exactly two characters per digest
      byte; those characters are the digest's hex digits, with every letter
      upper-case when `upperCase` is set and lower-case when it is not. */
  lemma FilenameShape(upperCase: bool, suffix: string, d: Digest)
    ensures var name := Filename(upperCase, suffix, d);
      && |name| == 2 * |d.bytes| + |suffix|
      && name[2 * |d.bytes|..] == suffix
      && (forall i :: 0 <= i < 2 * |d.bytes| ==> LowerChar(name[i]) == DigestString(d)[i])
      && (forall i :: 0 <= i < 2 * |d.bytes| ==> (IsLowerLetter(name[i]) <==> !upperCase && 'a' <= DigestString(d)[i]))
  {
    var name := Filename(upperCase, suffix, d);
    var s := DigestString(d);
    assert name[..|s|] == (if upperCase then ToUpper(s) else s);
  }

  /** Two different digests never share a filename under the same options,
      so workers on different digests write disjoint paths. */
  lemma FilenameInjective(upperCase: bool, suffix: string, a: Digest, b: Digest)
    ensures Filename(upperCase, suffix, a) == Filename(upperCase, suffix, b) ==> a == b
  {
    var sa, sb := DigestString(a), DigestString(b);
    if Filename(upperCase, suffix, a) == Filename(upperCase, suffix, b) {
      var na, nb := Filename(upperCase, suffix, a), Filename(upperCase, suffix, b);
      assert |sa| == |sb|;
      assert na[..|sa|] == (if upperCase then ToUpper(sa) else sa);
      assert nb[..|sb|] == (if upperCase then ToUpper(sb) else sb);
      if upperCase {
        ToUpperHexRoundTrip(sa);
        ToUpperHexRoundTrip(sb);
      }
      assert sa == sb;
      HexInjective(a.bytes, b.bytes);
    }
  }

  /** `strings.TrimRight(s, "/")`: drop every trailing `c`. */
  function TrimRight(s: string, c: char): (r: string)
    ensures |r| <= |s| && r == s[..|r|]
    ensures |r| == 0 || r[|r| - 1] != c
    ensures forall i :: |r| <= i < |s| ==> s[i] == c
    decreases |s|
  {
    if |s| > 0 && s[|s| - 1] == c then TrimRight(s[..|s| - 1], c) else s
  }

  /** `createUrl`: the storage URL without trailing slashes, one slash, the digest. */
  function CreateUrl(storageUrl: string, d: Digest): (r: string)
    // cutting the URL at its last `/` gives back the trimmed base and the digest
    ensures SplitLast(r) == (TrimRight(storageUrl, '/'), DigestString(d))
  {
    SplitLastOfJoin(TrimRight(storageUrl, '/'), DigestString(d));
    TrimRight(storageUrl, '/') + "/" + DigestString(d)
  }

  /** The part of a URL after its last `/`, and the part before it. */
  function SplitLast(url: string): (r: (string, string))
    ensures |r.0| + |r.1| <= |url|
    ensures forall i :: 0 <= i < |r.1| ==> r.1[i] != '/'
    decreases |url|
  {
    if |url| == 0 then ("", "")
    else if url[|url| - 1] == '/' then (url[..|url| - 1], "")
    else
      var (pre, last) := SplitLast(url[..|url| - 1]);
      (pre, last + [url[|url| - 1]])
  }

  lemma {:induction false} SplitLastOfJoin(pre: string, last: string)
    requires forall i :: 0 <= i < |last| ==> last[i] != '/'
    ensures SplitLast(pre + "/" + last) == (pre, last)
    decreases |last|
  {
    var url := pre + "/" + last;
    if |last| == 0 {
      assert url[..|url| - 1] == pre;
    } else {
      var last' := last[..|last| - 1];
      assert url[..|url| - 1] == pre + "/" + last';
      SplitLastOfJoin(pre, last');
      assert last' + [last[|last| - 1]] == last;
    }
  }

  /** The URL joins the storage URL, stripped of all its trailing slashes, to
      the digest with exactly one slash, and both parts can be read back. */
  lemma CreateUrlShape(storageUrl: string, d: Digest)
    ensures var base := TrimRight(storageUrl, '/');
      && SplitLast(CreateUrl(storageUrl, d)) == (base, DigestString(d))
      && storageUrl[..|base|] == base
      && (forall i :: |base| <= i < |storageUrl| ==> storageUrl[i] == '/')
      && (|base| == 0 || base[|base| - 1] != '/')
      && CreateUrl(storageUrl, d)[|base|] == '/'
  {
    var s := DigestString(d);
    forall i | 0 <= i < |s| ensures s[i] != '/' {
      assert IsLowerHex(s[i]);
    }
    SplitLastOfJoin(TrimRight(storageUrl, '/'), s);
  }
}

=== FILE: options.dfy ===
/**
 Construction of a client (`New` in client/client.go): every zero or
 sentinel option is replaced by its default.
 */
module Options {

  /** `time.Duration` is a count of nanoseconds. */
  const Microsecond: int := 1_000
  const Second: int := 1_000_000_000

  const DefaultMax: int := 4
  const DefaultTimeout: int := 30 * Second
  const DefaultRetryTries: nat := 10
  const DefaultRetryDelay: int := 100_000 * Microsecond

  /** The caller's options, as declared by `StorClientOpts`. */
  datatype StorClientOpts = StorClientOpts(
    max: int,
    devnull: bool,
    timeout: int,      // -1: no timeout; 0: default
    retryDelay: int,
    retryTries: nat)

  /** The option fields of a constructed client. `retryAttempts` is the
      attempt bound the worker hands to the retry loop; `upperCase` and
      `suffix` are the filename options the worker reads. */
  datatype Config = Config(
    storageUrl: string,
    downloadDir: string,
    max: int,
    devnull: bool,
    timeout: int,
    retryDelay: int,
    retryAttempts: nat,
    upperCase: bool,
    suffix: string)

  /** `New`: normalise the options; fields `New` never assigns keep Go's zero value. */
  function New(storageUrl: string, downloadDir: string, opts: StorClientOpts): (c: Config)
    ensures c.storageUrl == storageUrl && c.downloadDir == downloadDir
    ensures opts.max == 0 ==> c.max == DefaultMax
    ensures opts.max != 0 ==> c.max == opts.max
    ensures opts.timeout == -1 ==> c.timeout == 0
    ensures opts.timeout == 0 ==> c.timeout == DefaultTimeout
    ensures opts.timeout != -1 && opts.timeout != 0 ==> c.timeout == opts.timeout
    ensures c.devnull == opts.devnull
    ensures c.retryDelay == (if opts.retryDelay == 0 then DefaultRetryDelay else opts.retryDelay)
    ensures c.retryAttempts == (if opts.retryTries == 0 then DefaultRetryTries else opts.retryTries)
    ensures !c.upperCase && c.suffix == ""
    ensures c.max != 0 && c.retryAttempts >= 1 && c.retryDelay != 0
  {
    Config(
      storageUrl,
      downloadDir,
      if opts.max != 0 then opts.max else DefaultMax,
      opts.devnull,
      if opts.timeout == -1 then 0 else if opts.timeout != 0 then opts.timeout else DefaultTimeout,
      if opts.retryDelay == 0 then DefaultRetryDelay else opts.retryDelay,
      if opts.retryTries == 0 then DefaultRetryTries else opts.retryTries,
      false,
      "")
  }

  /** The options a client's own fields would spell. */
  function OptsOf(c: Config): StorClientOpts
  {
    StorClientOpts(c.max, c.devnull, c.timeout, c.retryDelay, c.retryAttempts)
  }

  /** Re-normalising a client's own settings changes nothing, except when the
      caller asked for "no timeout": that is stored as 0, which `New` reads
      back as "use the default". */
  lemma NewIdempotentUnlessNoTimeout(storageUrl: string, downloadDir: string, opts: StorClientOpts)
    ensures New(storageUrl, downloadDir, OptsOf(New(storageUrl, downloadDir, opts)))
              == New(storageUrl, downloadDir, opts)
            <==> opts.timeout != -1
  {
  }
}

=== FILE: pool.dfy ===
/**
 The client's life cycle (client/client.go) with the worker pool run as one
 sequential schedule: `Download` appends digests to the work queue and counts
 them, `Wait` appends one stop marker per worker, the workers drain the queue
 in order, and `processStats` folds the emitted stats into a total.
 */
module Pool {
  import opened Types
  import opened Options
  import opened Worker

  /** The submitting side of a client: its settings, the work queue, and
      `expectedDownloadCount`. */
  datatype Client = Client(cfg: Config, queue: seq<Digest>, expected: nat)

  /** A client just returned by `New`: empty queue, nothing expected. */
  function Fresh(cfg: Config): Client
  {
    Client(cfg, [], 0)
  }

  /** `Download`: count one more expected download and enqueue the digest. */
  function Download(c: Client, sha: Digest): (r: Client)
    ensures r.cfg == c.cfg
    ensures r.expected == c.expected + 1
    ensures |r.queue| == |c.queue| + 1 && r.queue[..|c.queue|] == c.queue && r.queue[|c.queue|] == sha
  {
    Client(c.cfg, c.queue + [sha], c.expected + 1)
  }

  /** A sequence of `Download` calls. */
  function DownloadAll(c: Client, shas: seq<Digest>): Client
    decreases |shas|
  {
    if |shas| == 0 then c else DownloadAll(Download(c, shas[0]), shas[1..])
  }

  /** After any number of submissions the queue holds them in order behind
      what was there, and the expected count grew by their number. */
  lemma {:induction false} DownloadAllQueues(c: Client, shas: seq<Digest>)
    ensures DownloadAll(c, shas).queue == c.queue + shas
    ensures DownloadAll(c, shas).expected == c.expected + |shas|
    ensures DownloadAll(c, shas).cfg == c.cfg
    decreases |shas|
  {
    if |shas| > 0 {
      DownloadAllQueues(Download(c, shas[0]), shas[1..]);
      assert c.queue + [shas[0]] + shas[1..] == c.queue + shas;
    }
  }

  /** `Start` launches one worker for each id in `0 <= id < Max`. */
  function WorkerCount(cfg: Config): nat
  {
    if cfg.max > 0 then cfg.max else 0
  }

  function Stops(k: nat): (r: seq<Digest>)
    ensures |r| == k
  {
    seq(k, _ => WorkerEnd)
  }

  /** `sendEndSignalToAllWorkers`: one stop marker per worker, behind
      everything already queued. */
  function SendEndSignals(c: Client): (r: Client)
    ensures r.cfg == c.cfg && r.expected == c.expected
    ensures |r.queue| == |c.queue| + WorkerCount(c.cfg)
    ensures r.queue[..|c.queue|] == c.queue
    ensures forall i :: |c.queue| <= i < |r.queue| ==> r.queue[i] == WorkerEnd
  {
    Client(c.cfg, c.queue + Stops(WorkerCount(c.cfg)), c.expected)
  }

  /** Number of real work items (anything but the stop marker) in a queue. */
  function CountReal(q: seq<Digest>): (n: nat)
    ensures n <= |q|
  {
    if |q| == 0 then 0 else (if q[0] == WorkerEnd then 0 else 1) + CountReal(q[1..])
  }

  lemma {:induction false} CountRealConcat(a: seq<Digest>, b: seq<Digest>)
    ensures CountReal(a + b) == CountReal(a) + CountReal(b)
    decreases |a|
  {
    if |a| > 0 {
      var ab := a + b;
      assert ab[0] == a[0];
      assert ab[1..] == a[1..] + b;
      CountRealConcat(a[1..], b);
      assert CountReal(ab) == (if a[0] == WorkerEnd then 0 else 1) + CountReal(ab[1..]);
    } else {
      assert a + b == b;
    }
  }

  lemma {:induction false} CountRealMissesStop(q: seq<Digest>, j: nat)
    requires j < |q| && q[j] == WorkerEnd
    ensures CountReal(q) < |q|
    decreases |q|
  {
    if j > 0 {
      CountRealMissesStop(q[1..], j - 1);
    }
  }

  /** What a worker does with one item, the client's settings and
      collaborators fixed. */
  type StepFn = (World, Digest, ItemEnv) -> Step

  /** The facts about a worker step the pool relies on: only the stop marker
      ends a worker, the in-flight set comes back as it was, and only OK
      carries a size or a duration. */
  ghost predicate StepLaws(step: StepFn)
  {
    forall w, sha, env ::
      && (step(w, sha, env).WorkerExit? <==> sha == WorkerEnd)
      && (step(w, sha, env).Emitted? ==> step(w, sha, env).world.inFlight == w.inFlight)
      && (step(w, sha, env).Emitted? && step(w, sha, env).stat.status != DownOk ==>
            step(w, sha, env).stat.size == 0 && step(w, sha, env).stat.duration == 0)
  }

  /** The worker loop body of a client with settings `cfg`. */
  function WorkerOf(cfg: Config, host: Host): (step: StepFn)
    ensures StepLaws(step)
  {
    (w: World, sha: Digest, env: ItemEnv) => WorkerStep(cfg, host, w, sha, env)
  }

  /** How far the pool got, what it emitted, and the world it left. */
  datatype Drained = Drained(stats: seq<DownStat>, world: World, consumed: nat)

  /** The workers, each running `step`, drain the queue from position `i`,
      `live` of them still running; every item goes to some live worker, a
      stop marker ends that worker, and once none is left nothing more is
      taken off the queue. */
  function Drain(step: StepFn, w: World, queue: seq<Digest>, live: nat,
                 envs: nat -> ItemEnv, i: nat): (r: Drained)
    requires StepLaws(step) && i <= |queue|
    ensures r.consumed == Consumed(queue, live, i)
    // one stat per real item consumed, none per stop marker
    ensures |r.stats| == CountReal(queue[i..r.consumed])
    ensures r.world.inFlight == w.inFlight
    // skipped and failed items carry neither size nor duration
    ensures forall j :: 0 <= j < |r.stats| && r.stats[j].status != DownOk ==>
              r.stats[j].size == 0 && r.stats[j].duration == 0
    decreases |queue| - i
  {
    if live == 0 || i == |queue| then Drained([], w, i)
    else
      match step(w, queue[i], envs(i))
      case WorkerExit =>
        var rest := Drain(step, w, queue, live - 1, envs, i + 1);
        CountRealFront(queue, i, rest.consumed);
        rest
      case Emitted(stat, w', _) =>
        var rest := Drain(step, w', queue, live, envs, i + 1);
        CountRealFront(queue, i, rest.consumed);
        Drained([stat] + rest.stats, rest.world, rest.consumed)
  }

  lemma CountRealFront(queue: seq<Digest>, i: nat, c: nat)
    requires i < c <= |queue|
    ensures CountReal(queue[i..c]) == (if queue[i] == WorkerEnd then 0 else 1) + CountReal(queue[i + 1..c])
  {
    assert queue[i..c][1..] == queue[i + 1..c];
  }

  /** How far the workers get from position `i` with `live` of them running:
      only stop markers end workers, whatever the items themselves do. */
  function Consumed(queue: seq<Digest>, live: nat, i: nat): (c: nat)
    requires i <= |queue|
    ensures i <= c <= |queue|
    decreases |queue| - i
  {
    if live == 0 || i == |queue| then i
    else Consumed(queue, if queue[i] == WorkerEnd then live - 1 else live, i + 1)
  }

  /** Each stop marker taken ends one live worker: no more markers are taken
      than there are live workers, and once the last live worker has met its
      marker nothing behind it is taken. */
  lemma {:induction false} ConsumedEndsWorkers(queue: seq<Digest>, live: nat, i: nat)
    requires i <= |queue|
    ensures var c := Consumed(queue, live, i);
      && StopsIn(queue, i, c) <= live
      && (c > i && StopsIn(queue, i, c) == live ==> queue[c - 1] == WorkerEnd)
      && (c < |queue| ==> StopsIn(queue, i, c) == live)
    decreases |queue| - i
  {
    if live > 0 && i < |queue| {
      var live' := if queue[i] == WorkerEnd then live - 1 else live;
      ConsumedEndsWorkers(queue, live', i + 1);
      StopsInFront(queue, i, Consumed(queue, live, i));
    }
  }

  /** The pool's drain follows that schedule: no more stop markers are taken
      than there are live workers, nothing is taken behind the last live
      worker's marker, and the queue is left unfinished only when no worker
      is left. */
  lemma DrainEndsWorkers(step: StepFn, w: World, queue: seq<Digest>, live: nat,
                         envs: nat -> ItemEnv, i: nat)
    requires StepLaws(step) && i <= |queue|
    ensures var r := Drain(step, w, queue, live, envs, i);
      && StopsIn(queue, i, r.consumed) <= live
      && (r.consumed > i && StopsIn(queue, i, r.consumed) == live ==> queue[r.consumed - 1] == WorkerEnd)
      // the pool stops early only when every live worker has met a stop marker
      && (r.consumed < |queue| ==> StopsIn(queue, i, r.consumed) == live)
  {
    ConsumedEndsWorkers(queue, live, i);
  }

  /** The number of stop markers in `queue[i..c]`. */
  function StopsIn(queue: seq<Digest>, i: nat, c: nat): nat
    requires i <= c <= |queue|
  {
    (c - i) - CountReal(queue[i..c])
  }

  lemma StopsInFront(queue: seq<Digest>, i: nat, c: nat)
    requires i < c <= |queue|
    ensures StopsIn(queue, i, c) == (if queue[i] == WorkerEnd then 1 else 0) + StopsIn(queue, i + 1, c)
  {
    CountRealFront(queue, i, c);
  }

  lemma {:induction false} DrainStops(step: StepFn, w: World, queue: seq<Digest>,
                                      envs: nat -> ItemEnv, i: nat)
    requires StepLaws(step) && i <= |queue|
    requires forall j :: i <= j < |queue| ==> queue[j] == WorkerEnd
    ensures Drain(step, w, queue, |queue| - i, envs, i) == Drained([], w, |queue|)
    decreases |queue| - i
  {
    if i < |queue| {
      DrainStops(step, w, queue, envs, i + 1);
    }
  }

  /** With the stop markers behind the real items, every real item is taken
      off the queue and yields exactly one stat, then every worker exits. */
  lemma {:induction false} DrainAll(step: StepFn, w: World, items: seq<Digest>, k: nat,
                                    envs: nat -> ItemEnv, i: nat)
    requires StepLaws(step) && k >= 1 && i <= |items|
    requires forall j :: 0 <= j < |items| ==> items[j] != WorkerEnd
    ensures |Drain(step, w, items + Stops(k), k, envs, i).stats| == |items| - i
    ensures Drain(step, w, items + Stops(k), k, envs, i).consumed == |items| + k
    decreases |items| - i
  {
    var queue := items + Stops(k);
    if i == |items| {
      DrainStops(step, w, queue, envs, i);
    } else {
      assert queue[i] == items[i];
      DrainAll(step, step(w, queue[i], envs(i)).world, items, k, envs, i + 1);
    }
  }

  /** `processStats`' total; `expected` is the count it captured. */
  datatype TotalStat = TotalStat(size: nat, duration: nat, count: nat, expected: nat)

  function SumSizes(stats: seq<DownStat>): nat
  {
    if |stats| == 0 then 0 else SumSizes(stats[..|stats| - 1]) + stats[|stats| - 1].size
  }

  function SumDurations(stats: seq<DownStat>): nat
  {
    if |stats| == 0 then 0 else SumDurations(stats[..|stats| - 1]) + stats[|stats| - 1].duration
  }

  /** The total of a stat stream, stated in closed form. */
  function TotalOf(expected: nat, stats: seq<DownStat>): TotalStat
  {
    TotalStat(SumSizes(stats), SumDurations(stats), |stats|, expected)
  }

  /** `processStats`: fold the stat stream in arrival order. */
  method ProcessStats(expected: nat, stats: seq<DownStat>) returns (total: TotalStat)
    ensures total.count == |stats| && total.expected == expected
    ensures total.size == SumSizes(stats) && total.duration == SumDurations(stats)
  {
    total := TotalStat(0, 0, 0, expected);
    var i := 0;
    while i < |stats|
      invariant 0 <= i <= |stats|
      invariant total == TotalOf(expected, stats[..i])
    {
      assert stats[..i + 1][..i] == stats[..i];
      total := TotalStat(total.size + stats[i].size, total.duration + stats[i].duration,
                         total.count + 1, total.expected);
      i := i + 1;
    }
    assert stats[..i] == stats;
  }

  /** Only OK stats. */
  function OkOnly(stats: seq<DownStat>): seq<DownStat>
  {
    if |stats| == 0 then []
    else OkOnly(stats[..|stats| - 1]) + (if stats[|stats| - 1].status == DownOk then [stats[|stats| - 1]] else [])
  }

  /** Skipped and failed items add nothing: the totals are the totals of the
      completed downloads alone. */
  lemma {:induction false} TotalsCountOnlyCompleted(stats: seq<DownStat>)
    requires forall j :: 0 <= j < |stats| && stats[j].status != DownOk ==>
               stats[j].size == 0 && stats[j].duration == 0
    ensures SumSizes(stats) == SumSizes(OkOnly(stats))
    ensures SumDurations(stats) == SumDurations(OkOnly(stats))
  {
    if |stats| > 0 {
      var init, last := stats[..|stats| - 1], stats[|stats| - 1];
      TotalsCountOnlyCompleted(init);
      if last.status == DownOk {
        assert (OkOnly(init) + [last])[..|OkOnly(init)|] == OkOnly(init);
      } else {
        assert OkOnly(stats) == OkOnly(init);
      }
    }
  }

  /** `TotalStat.Status`: every expected download is accounted for. */
  predicate Status(total: TotalStat)
  {
    total.count == total.expected
  }

  /** The whole run from a fresh client: submit `shas`, `Wait`, and total the
      stats with `expected` as the expected count. */
  function Run(cfg: Config, host: Host, w: World, shas: seq<Digest>, envs: nat -> ItemEnv, expected: nat)
    : TotalStat
  {
    var c := SendEndSignals(DownloadAll(Fresh(cfg), shas));
    TotalOf(expected, Drain(WorkerOf(cfg, host), w, c.queue, WorkerCount(cfg), envs, 0).stats)
  }

  /** As written, `processStats` reads `expectedDownloadCount` when its
      goroutine starts, racing with the `Download` calls that follow `Start`:
      it sees some count between 0 and the number of submissions. */
  function RunAsWritten(cfg: Config, host: Host, w: World, shas: seq<Digest>, envs: nat -> ItemEnv,
                        captured: nat): TotalStat
    requires captured <= |shas|
  {
    Run(cfg, host, w, shas, envs, captured)
  }

  /** The expected count read in `Wait`, after the last submission. */
  function RunCorrected(cfg: Config, host: Host, w: World, shas: seq<Digest>, envs: nat -> ItemEnv)
    : TotalStat
  {
    Run(cfg, host, w, shas, envs, DownloadAll(Fresh(cfg), shas).expected)
  }

  /** Every real submission is processed exactly once when at least one worker runs. */
  lemma RunCountsEverySubmission(cfg: Config, host: Host, w: World, shas: seq<Digest>, envs: nat -> ItemEnv,
                                 expected: nat)
    requires WorkerCount(cfg) >= 1
    requires forall j :: 0 <= j < |shas| ==> shas[j] != WorkerEnd
    ensures Run(cfg, host, w, shas, envs, expected).count == |shas|
  {
    DownloadAllQueues(Fresh(cfg), shas);
    assert Fresh(cfg).queue + shas == shas;
    DrainAll(WorkerOf(cfg, host), w, shas, WorkerCount(cfg), envs, 0);
  }

  /** As written, a run in which the stats goroutine started before the last
      submission reports failure even though every item was processed. */
  lemma StatusAsWrittenMissesSubmissions(cfg: Config, host: Host, w: World, shas: seq<Digest>,
                                         envs: nat -> ItemEnv, captured: nat)
    requires WorkerCount(cfg) >= 1
    requires forall j :: 0 <= j < |shas| ==> shas[j] != WorkerEnd
    requires captured < |shas|
    ensures RunAsWritten(cfg, host, w, shas, envs, captured).count == |shas|
    ensures !Status(RunAsWritten(cfg, host, w, shas, envs, captured))
  {
    RunCountsEverySubmission(cfg, host, w, shas, envs, captured);
  }

  /** The smallest instance: default options, one digest, the stats goroutine
      scheduled before the `Download` call. */
  lemma StatusAsWrittenCounterexample(host: Host, w: World, envs: nat -> ItemEnv)
    ensures !Status(RunAsWritten(New("http://stor", "/data", StorClientOpts(0, false, 0, 0, 0)),
                                 host, w, [Digest([1])], envs, 0))
  {
  }

  /** A run never emits more stats than there are real submissions, and
      none at all without workers. */
  lemma RunCountBound(cfg: Config, host: Host, w: World, shas: seq<Digest>, envs: nat -> ItemEnv,
                      expected: nat)
    ensures Run(cfg, host, w, shas, envs, expected).count <= CountReal(shas)
    ensures WorkerCount(cfg) == 0 ==> Run(cfg, host, w, shas, envs, expected).count == 0
  {
    DownloadAllQueues(Fresh(cfg), shas);
    assert Fresh(cfg).queue + shas == shas;
    DrainCountBound(WorkerOf(cfg, host), w, shas, WorkerCount(cfg), envs);
  }

  /** Whatever the workers do, draining a queue of submissions followed by
      `k` stop markers emits at most one stat per real submission, and none
      when no worker runs. */
  lemma DrainCountBound(step: StepFn, w: World, shas: seq<Digest>, k: nat, envs: nat -> ItemEnv)
    requires StepLaws(step)
    ensures |Drain(step, w, shas + Stops(k), k, envs, 0).stats| <= CountReal(shas)
    ensures k == 0 ==> Drain(step, w, shas + Stops(k), k, envs, 0).stats == []
  {
    var q := shas + Stops(k);
    var d := Drain(step, w, q, k, envs, 0);
    assert q[0..d.consumed] + q[d.consumed..] == q;
    CountRealConcat(q[0..d.consumed], q[d.consumed..]);
    CountRealConcat(shas, Stops(k));
    StopsCountNothing(k);
  }

  /** With the count read at `Wait`, the run reports success exactly when every
      submission can be accounted for: there were none, or at least one worker
      ran and no submission was the stop marker itself. */
  lemma StatusCorrected(cfg: Config, host: Host, w: World, shas: seq<Digest>, envs: nat -> ItemEnv)
    ensures Status(RunCorrected(cfg, host, w, shas, envs))
            <==> |shas| == 0 || (WorkerCount(cfg) >= 1 && forall j :: 0 <= j < |shas| ==> shas[j] != WorkerEnd)
  {
    DownloadAllQueues(Fresh(cfg), shas);
    if WorkerCount(cfg) >= 1 && forall j :: 0 <= j < |shas| ==> shas[j] != WorkerEnd {
      RunCountsEverySubmission(cfg, host, w, shas, envs, |shas|);
    } else if |shas| > 0 {
      RunCountBound(cfg, host, w, shas, envs, |shas|);
      if WorkerCount(cfg) >= 1 {
        var j :| 0 <= j < |shas| && shas[j] == WorkerEnd;
        CountRealMissesStop(shas, j);
      }
    }
  }

  lemma {:induction false} StopsCountNothing(k: nat)
    ensures CountReal(Stops(k)) == 0
  {
    if k > 0 {
      assert Stops(k)[1..] == Stops(k - 1);
      StopsCountNothing(k - 1);
    }
  }
}

=== FILE: retry.dfy ===
/**
 The retry rule of `downloadWorker` (client/download.go): `retry.Do` runs the
 attempt function at most `Attempts` times, stops at the first success, and
 stops early at an error that `RetryIf` classifies as permanent. The delay
 between attempts and the `OnRetry` logging are not modelled.
 */
module Retry {
  import opened Types

  /** `RetryIf`: every error is retried except a download error with status 404. */
  predicate RetryIf(e: Failure)
  {
    !(e.DownloadError? && e.statusCode == 404)
  }

  /** What `retry.Do` hands back: whether it succeeded, the size the last call
      stored, the state after the last call, the errors collected, and the
      number of times the attempt function ran. */
  datatype Tried<S> = Tried(ok: bool, size: nat, state: S, errors: seq<Failure>, tries: nat)

  /** The attempt loop from attempt number `n` on; each call sees the state the
      previous one left and its own attempt number. */
  function DoFrom<S>(f: (S, nat) -> (Attempt, S), s: S, n: nat, attempts: nat): (r: Tried<S>)
    ensures n < attempts ==> 1 <= r.tries <= attempts - n
    ensures n >= attempts ==> r.tries == 0 && !r.ok
    // one error per failed call; only the last call may have succeeded
    ensures |r.errors| == r.tries - (if r.ok then 1 else 0)
    // every error but the last was retryable
    ensures forall i :: 0 <= i < |r.errors| - 1 ==> RetryIf(r.errors[i])
    // giving up before the bound happens only at a permanent error
    ensures !r.ok && 0 < r.tries < attempts - n ==> !RetryIf(r.errors[|r.errors| - 1])
    ensures r.ok ==> r.errors == [] || RetryIf(r.errors[|r.errors| - 1])
    // a successful first call ends the loop with that call's size and state
    ensures n < attempts && f(s, n).0.err.None? ==>
              r == Tried(true, f(s, n).0.size, f(s, n).1, [], 1)
    // a permanent first error ends the loop after exactly one call
    ensures n < attempts && f(s, n).0.err.Some? && !RetryIf(f(s, n).0.err.value) ==>
              !r.ok && r.tries == 1 && r.errors == [f(s, n).0.err.value]
    // the errors logged are the ones the calls made returned, in order
    ensures forall j :: 0 <= j < |r.errors| ==> CallAt(f, s, n, n + j).0.err == Some(r.errors[j])
    // a success reports the size and state of the call that succeeded
    ensures r.ok ==> var last := CallAt(f, s, n, n + r.tries - 1);
              last.0.err.None? && r.size == last.0.size && r.state == last.1
    decreases attempts - n
  {
    if n >= attempts then Tried(false, 0, s, [], 0)
    else
      var (a, s') := f(s, n);
      match a.err
      case None => Tried(true, a.size, s', [], 1)
      case Some(e) =>
        if !RetryIf(e) || n == attempts - 1 then Tried(false, a.size, s', [e], 1)
        else
          var rest := DoFrom(f, s', n + 1, attempts);
          ShiftAll(f, s, n);
          Tried(rest.ok, rest.size, rest.state, [e] + rest.errors, rest.tries + 1)
  }

  /** `retry.Do(f, RetryIf(...), Attempts(attempts))` */
  function Do<S>(f: (S, nat) -> (Attempt, S), s: S, attempts: nat): (r: Tried<S>)
    ensures attempts == 0 ==> !r.ok && r.tries == 0
    ensures attempts > 0 ==> 1 <= r.tries <= attempts
    // success means one of the calls the loop actually made returned no error
    ensures r.ok <==> exists k: nat :: k < attempts && CallAt(f, s, 0, k).0.err.None?
  {
    if attempts == 0 then DoFrom(f, s, 0, attempts)
    else
      OkIffSomeCallSucceeded(f, s, 0, attempts);
      DoFrom(f, s, 0, attempts)
  }

  /** An attempt function that never succeeds and never fails permanently. */
  ghost predicate AlwaysTransient<S(!new)>(f: (S, nat) -> (Attempt, S))
  {
    forall s, n :: f(s, n).0.err.Some? && RetryIf(f(s, n).0.err.value)
  }

  /** When every call fails with a retryable error, the loop runs exactly the
      configured number of attempts and fails. */
  lemma {:induction false} ExhaustsAttempts<S(!new)>(f: (S, nat) -> (Attempt, S), s: S, n: nat, attempts: nat)
    requires AlwaysTransient(f)
    ensures !DoFrom(f, s, n, attempts).ok
    ensures DoFrom(f, s, n, attempts).tries == if n < attempts then attempts - n else 0
    decreases attempts - n
  {
    if n < attempts - 1 {
      ExhaustsAttempts(f, f(s, n).1, n + 1, attempts);
    }
  }

  /** Success means some call succeeded: the loop reports success exactly when
      its last call returned no error. */
  lemma {:induction false} OkIffSomeCallSucceeded<S>(f: (S, nat) -> (Attempt, S), s: S, n: nat, attempts: nat)
    requires n < attempts
    ensures var r := DoFrom(f, s, n, attempts);
      r.ok <==> exists k :: n <= k < attempts && CallAt(f, s, n, k).0.err.None?
    decreases attempts - n
  {
    var r := DoFrom(f, s, n, attempts);
    var (a, s') := f(s, n);
    assert CallAt(f, s, n, n) == f(s, n);
    if a.err.None? {
      assert CallAt(f, s, n, n).0.err.None?;
    } else if !RetryIf(a.err.value) {
      forall k | n <= k < attempts ensures CallAt(f, s, n, k).0.err.Some? {
        CallAtStops(f, s, n, k);
      }
    } else if n == attempts - 1 {
    } else {
      var rest := DoFrom(f, s', n + 1, attempts);
      assert r.ok == rest.ok;
      OkIffSomeCallSucceeded(f, s', n + 1, attempts);
      forall k | n + 1 <= k < attempts ensures CallAt(f, s, n, k) == CallAt(f, s', n + 1, k) {
        CallAtShift(f, s, n, k);
      }
      if rest.ok {
        var k :| n + 1 <= k < attempts && CallAt(f, s', n + 1, k).0.err.None?;
        CallAtShift(f, s, n, k);
        assert n <= k < attempts && CallAt(f, s, n, k).0.err.None?;
        assert r.ok;
      } else {
        forall k | n <= k < attempts ensures CallAt(f, s, n, k).0.err.Some? {
          if k > n {
            assert CallAt(f, s, n, k) == CallAt(f, s', n + 1, k);
            assert !CallAt(f, s', n + 1, k).0.err.None?;
          } else {
            assert CallAt(f, s, n, k) == f(s, n);
          }
        }
      }
    }
  }

  /** The result of call number `k`, running the calls from `n` up to `k` one
      after another as long as none of them stops the loop (a stopping call is
      repeated so that later indices see it). */
  function CallAt<S>(f: (S, nat) -> (Attempt, S), s: S, n: nat, k: nat): (Attempt, S)
    requires n <= k
    decreases k - n
  {
    var (a, s') := f(s, n);
    if k == n || a.err.None? || !RetryIf(a.err.value) then (a, s')
    else CallAt(f, s', n + 1, k)
  }

  lemma CallAtShift<S>(f: (S, nat) -> (Attempt, S), s: S, n: nat, k: nat)
    requires n < k
    requires f(s, n).0.err.Some? && RetryIf(f(s, n).0.err.value)
    ensures CallAt(f, s, n, k) == CallAt(f, f(s, n).1, n + 1, k)
  {
  }

  /** After a retryable error, every later call is the corresponding call
      of the loop restarted from the next attempt. */
  lemma ShiftAll<S>(f: (S, nat) -> (Attempt, S), s: S, n: nat)
    requires f(s, n).0.err.Some? && RetryIf(f(s, n).0.err.value)
    ensures forall k :: n < k ==> CallAt(f, s, n, k) == CallAt(f, f(s, n).1, n + 1, k)
  {
    forall k | n < k {
      CallAtShift(f, s, n, k);
    }
  }

  lemma CallAtStops<S>(f: (S, nat) -> (Attempt, S), s: S, n: nat, k: nat)
    requires n <= k
    requires f(s, n).0.err.Some? && !RetryIf(f(s, n).0.err.value)
    ensures CallAt(f, s, n, k) == f(s, n)
  {
  }
}

=== FILE: types.dfy ===
/**
 Shared vocabulary of the stor download client: digests, the abstract
 filesystem, per-item download statistics and the errors one download
 attempt can end with.
 */
module Types {

  datatype Option<+T> = None | Some(value: T)

  type byte = x: int | 0 <= x < 256

  /** Content identity of a blob. Only equality and the bytes are observable;
      SHA-256 itself is a parameter of the operations that need it. */
  datatype Digest = Digest(bytes: seq<byte>)

  /** The zero value of the digest type (`hashutil.Hash{}`), which the client
      sends down the work queue as the in-band "stop this worker" marker. */
  const WorkerEnd: Digest := Digest([])

  /** SHA-256 over a byte stream, left uninterpreted. */
  type Hasher = seq<byte> -> Digest

  type Path = string

  /** The local filesystem as a map from path to file content. */
  type FileSystem = map<Path, seq<byte>>

  /** `DOWN_OK`, `DOWN_SKIP` and `DOWN_FAIL`. */
  datatype DownStatus = DownOk | DownSkip | DownFail

  /** One per-item result on the stats channel. Sizes are bytes and
      durations are nanoseconds, both as unbounded naturals. */
  datatype DownStat = DownStat(size: nat, duration: nat, status: DownStatus)

  /** The errors a download attempt (and its cleanup) can return. */
  datatype Failure =
    | DownloadError(sha: Digest, statusCode: int)  // non-200 HTTP status
    | TransportError                               // httpClient.Get failed
    | StreamError                                  // io.Copy of the body failed
    | DigestMismatch(got: Digest, expected: Digest)
    | TempPathError                                // the temp path could not be built
    | OpenWriterError                              // the temp file could not be opened
    | StaleTempCleanupError                        // an old temp file could not be removed
    | RenameError                                  // temp -> final rename failed
    | TempCleanupError                             // removing the temp file after a failure failed

  /** Go's `(size int64, err error)` pair returned by each download helper. */
  datatype Attempt = Attempt(size: nat, err: Option<Failure>)

  /** Two filesystems agree on `p`: both lack it, or both hold the same bytes. */
  predicate SameAt(fs: FileSystem, fs': FileSystem, p: Path)
  {
    (p in fs <==> p in fs') && (p in fs ==> fs[p] == fs'[p])
  }
}

=== FILE: worker.dfy ===
/**
 What one download worker does with one item taken from the work queue
 (the loop body of `downloadWorker`, client/download.go): stop at the stop
 marker, otherwise build the target path, skip present files and digests
 another worker holds, fetch under the retry rule, release the claim, and
 emit exactly one stat.
 */
module Worker {
  import opened Types
  import opened Options
  import opened Naming
  import opened Fetch
  import opened Retry
  import opened InFlight

  /** The state the workers share: the filesystem and the in-flight set. */
  datatype World = World(fs: FileSystem, inFlight: set<Digest>)

  /** Collaborators that are not part of this model: SHA-256, and whether
      `pathutil.NewPath` accepts a path. */
  datatype Host = Host(hash: Hasher, validPath: Path -> bool)

  /** What the outside world does while one item is processed: for each
      attempt, given the URL and the attempt number, the server's reply and
      the filesystem faults; and the wall-clock time the fetch took. */
  datatype ItemEnv = ItemEnv(script: (string, nat) -> AttemptEnv, elapsed: nat)

  /** One step of a worker: it exits, or it emits one stat, leaving a new
      world behind after `fetches` calls of the attempt function. */
  datatype Step = WorkerExit | Emitted(stat: DownStat, world: World, fetches: nat)

  /** `pathutil.NewPath(client.downloadDir, filename)` */
  function TargetPath(cfg: Config, sha: Digest): Path
  {
    cfg.downloadDir + "/" + Filename(cfg.upperCase, cfg.suffix, sha)
  }

  /** Workers on different digests never share a target path, and no target
      path is the temp path of another (or of itself): the temp name is five
      characters longer, while two filenames under the same options differ
      in length by an even number. */
  lemma TargetPathsDisjoint(cfg: Config, a: Digest, b: Digest)
    ensures TargetPath(cfg, a) == TargetPath(cfg, b) ==> a == b
    ensures TargetPath(cfg, a) != TempPath(TargetPath(cfg, b))
  {
    var dir := cfg.downloadDir;
    var fa, fb := Filename(cfg.upperCase, cfg.suffix, a), Filename(cfg.upperCase, cfg.suffix, b);
    if TargetPath(cfg, a) == TargetPath(cfg, b) {
      assert fa == TargetPath(cfg, a)[|dir| + 1..];
      assert fb == TargetPath(cfg, b)[|dir| + 1..];
      FilenameInjective(cfg.upperCase, cfg.suffix, a, b);
    }
    assert |TempPath(TargetPath(cfg, b))| == |dir| + 1 + 2 * |b.bytes| + |cfg.suffix| + 5;
  }

  /** The function handed to `retry.Do`: one fetch of `sha` into `target`. */
  function AttemptFn(cfg: Config, host: Host, target: Path, sha: Digest, env: ItemEnv)
    : (FileSystem, nat) -> (Attempt, FileSystem)
  {
    (fs: FileSystem, n: nat) =>
      var c := FetchOnce(cfg.devnull, host.hash, host.validPath, fs, target, sha,
                         env.script(CreateUrl(cfg.storageUrl, sha), n));
      (c.attempt, c.fs)
  }

  /** The worker gets as far as fetching: a real digest, a usable path, no
      file there yet, and no other worker holding the digest. */
  predicate Fetches(cfg: Config, host: Host, w: World, sha: Digest)
  {
    && sha != WorkerEnd
    && host.validPath(TargetPath(cfg, sha))
    && TargetPath(cfg, sha) !in w.fs
    && sha !in w.inFlight
  }

  /** One iteration of the worker loop. */
  function WorkerStep(cfg: Config, host: Host, w: World, sha: Digest, env: ItemEnv): (r: Step)
    // the stop marker, and only the stop marker, ends the worker without a stat
    ensures r.WorkerExit? <==> sha == WorkerEnd
    // the in-flight set is as it was: a claim, when made, is always released
    ensures r.Emitted? ==> r.world.inFlight == w.inFlight
    // a path that cannot be built fails at once; an existing file or a digest
    // held elsewhere is skipped; none of them fetches or touches anything
    ensures sha != WorkerEnd && !host.validPath(TargetPath(cfg, sha)) ==>
              r == Emitted(DownStat(0, 0, DownFail), w, 0)
    ensures sha != WorkerEnd && host.validPath(TargetPath(cfg, sha)) && TargetPath(cfg, sha) in w.fs ==>
              r == Emitted(DownStat(0, 0, DownSkip), w, 0)
    ensures sha != WorkerEnd && host.validPath(TargetPath(cfg, sha)) && TargetPath(cfg, sha) !in w.fs
            && sha in w.inFlight ==>
              r == Emitted(DownStat(0, 0, DownSkip), w, 0)
    // a fetching item is never skipped and calls the attempt function at
    // least once (when attempts are allowed) and at most the configured bound
    ensures Fetches(cfg, host, w, sha) ==>
              r.Emitted? && r.stat.status != DownSkip && r.fetches <= cfg.retryAttempts
              && (cfg.retryAttempts > 0 ==> r.fetches >= 1)
    // only OK carries a size and a duration
    ensures r.Emitted? && r.stat.status != DownOk ==> r.stat.size == 0 && r.stat.duration == 0
    ensures r.Emitted? && r.stat.status == DownOk ==> r.stat.duration == env.elapsed
    // OK, with or without a file kept, means one of the attempts got a 200 reply
    // with a complete body hashing to the digest
    ensures r.Emitted? && r.stat.status == DownOk ==>
              exists k: nat :: k < r.fetches
                && Verified(host.hash, env.script(CreateUrl(cfg.storageUrl, sha), k).reply, sha)
                && r.stat.size == |env.script(CreateUrl(cfg.storageUrl, sha), k).reply.body|
    // a fetching item is OK exactly when the retry loop succeeded
    ensures Fetches(cfg, host, w, sha) ==>
              (r.stat.status == DownOk <==> Do(AttemptFn(cfg, host, TargetPath(cfg, sha), sha, env), w.fs, cfg.retryAttempts).ok)
    // OK means the target now holds content of exactly that size hashing to the digest
    ensures r.Emitted? && r.stat.status == DownOk && !cfg.devnull ==>
              && TargetPath(cfg, sha) in r.world.fs
              && host.hash(r.world.fs[TargetPath(cfg, sha)]) == sha
              && r.stat.size == |r.world.fs[TargetPath(cfg, sha)]|
    // the target only ever receives verified content, and nothing else but its
    // temp file changes
    ensures r.Emitted? && !SameAt(w.fs, r.world.fs, TargetPath(cfg, sha)) ==>
              && TargetPath(cfg, sha) in r.world.fs
              && host.hash(r.world.fs[TargetPath(cfg, sha)]) == sha
    ensures r.Emitted? ==> forall p :: p != TargetPath(cfg, sha) && p != TempPath(TargetPath(cfg, sha)) ==>
              SameAt(w.fs, r.world.fs, p)
    ensures r.Emitted? && r.stat.status == DownFail ==> SameAt(w.fs, r.world.fs, TargetPath(cfg, sha))
    ensures r.Emitted? && cfg.devnull ==> r.world.fs == w.fs
  {
    if sha == WorkerEnd then WorkerExit
    else
      var target := TargetPath(cfg, sha);
      if !host.validPath(target) then Emitted(DownStat(0, 0, DownFail), w, 0)
      else if target in w.fs then Emitted(DownStat(0, 0, DownSkip), w, 0)
      else
        var (claimed, held) := ContainsOrAdd(w.inFlight, sha);
        if !claimed then Emitted(DownStat(0, 0, DownSkip), w, 0)
        else
          var f := AttemptFn(cfg, host, target, sha, env);
          var run := Do(f, w.fs, cfg.retryAttempts);
          var released := Del(held, sha);
          ClaimThenRelease(w.inFlight, sha);
          FetchFrame(cfg, host, target, sha, env, w.fs, 0, cfg.retryAttempts);
          if !run.ok then Emitted(DownStat(0, 0, DownFail), World(run.state, released), run.tries)
          else Emitted(DownStat(run.size, env.elapsed, DownOk), World(run.state, released), run.tries)
  }

  /** What the retry loop over the fetch function preserves: only the target
      and its temp file change, the target only to verified content, and a
      successful run leaves verified content of the reported size there. */
  lemma {:induction false} FetchFrame(cfg: Config, host: Host, target: Path, sha: Digest, env: ItemEnv,
                                      fs: FileSystem, n: nat, attempts: nat)
    ensures var r := DoFrom(AttemptFn(cfg, host, target, sha, env), fs, n, attempts);
      && (forall p :: p != target && p != TempPath(target) ==> SameAt(fs, r.state, p))
      && (!SameAt(fs, r.state, target) ==> target in r.state && host.hash(r.state[target]) == sha)
      && (r.ok && !cfg.devnull ==> target in r.state && host.hash(r.state[target]) == sha
                                   && r.size == |r.state[target]|)
      && (!r.ok ==> SameAt(fs, r.state, target))
      && (cfg.devnull ==> r.state == fs)
      && (r.ok ==> exists k: nat :: n <= k < n + r.tries
                    && Verified(host.hash, env.script(CreateUrl(cfg.storageUrl, sha), k).reply, sha)
                    && r.size == |env.script(CreateUrl(cfg.storageUrl, sha), k).reply.body|)
    decreases attempts - n
  {
    var f := AttemptFn(cfg, host, target, sha, env);
    if n < attempts {
      var c := FetchOnce(cfg.devnull, host.hash, host.validPath, fs, target, sha,
                         env.script(CreateUrl(cfg.storageUrl, sha), n));
      assert f(fs, n) == (c.attempt, c.fs);
      var (a, fs') := f(fs, n);
      if a.err.Some? && RetryIf(a.err.value) && n != attempts - 1 {
        FetchFrame(cfg, host, target, sha, env, fs', n + 1, attempts);
        var r := DoFrom(f, fs', n + 1, attempts);
        assert SameAt(fs, fs', target);
        forall p | p != target && p != TempPath(target) ensures SameAt(fs, r.state, p) {
          assert SameAt(fs, fs', p) && SameAt(fs', r.state, p);
        }
      }
    }
  }

  /** The call of the attempt function, unfolded. */
  lemma AttemptFnAt(cfg: Config, host: Host, target: Path, sha: Digest, env: ItemEnv, fs: FileSystem, n: nat)
    ensures var c := FetchOnce(cfg.devnull, host.hash, host.validPath, fs, target, sha,
                               env.script(CreateUrl(cfg.storageUrl, sha), n));
      AttemptFn(cfg, host, target, sha, env)(fs, n) == (c.attempt, c.fs)
  {
  }

  /** A 404 on the first attempt fails the item after exactly one fetch,
      whatever the configured number of attempts (provided the temp file can
      be created and cleaned up, so that the 404 is what gets classified). */
  lemma NotFoundFailsAfterOneFetch(cfg: Config, host: Host, w: World, sha: Digest, env: ItemEnv)
    requires Fetches(cfg, host, w, sha) && cfg.retryAttempts >= 1
    requires var e := env.script(CreateUrl(cfg.storageUrl, sha), 0);
      && e.reply.Response? && e.reply.statusCode == 404
      && (cfg.devnull || (host.validPath(TempPath(TargetPath(cfg, sha)))
                          && !e.faults.openFails && !e.faults.removeFails))
    ensures WorkerStep(cfg, host, w, sha, env).Emitted?
    ensures WorkerStep(cfg, host, w, sha, env).stat.status == DownFail
    ensures WorkerStep(cfg, host, w, sha, env).fetches == 1
  {
  }

  /** When the server is never reachable, the item fails after exactly the
      configured number of fetches. */
  lemma UnreachableExhaustsAttempts(cfg: Config, host: Host, w: World, sha: Digest, env: ItemEnv)
    requires Fetches(cfg, host, w, sha)
    requires forall url, n :: env.script(url, n).reply.TransportFailure?
    ensures WorkerStep(cfg, host, w, sha, env).Emitted?
    ensures WorkerStep(cfg, host, w, sha, env).stat.status == DownFail
    ensures WorkerStep(cfg, host, w, sha, env).fetches == cfg.retryAttempts
  {
    var target := TargetPath(cfg, sha);
    var f := AttemptFn(cfg, host, target, sha, env);
    forall fs, n ensures f(fs, n).0.err.Some? && RetryIf(f(fs, n).0.err.value) {
      AttemptFnAt(cfg, host, target, sha, env, fs, n);
    }
    ExhaustsAttempts(f, w.fs, 0, cfg.retryAttempts);
  }

  /** A verified 200 response completes the item with the body's size; the
      same digest submitted again afterwards is skipped without any fetch. */
  lemma DownloadThenSkip(cfg: Config, host: Host, w: World, sha: Digest, env: ItemEnv, env2: ItemEnv,
                         body: seq<byte>)
    requires Fetches(cfg, host, w, sha) && !cfg.devnull && cfg.retryAttempts >= 1
    requires host.validPath(TempPath(TargetPath(cfg, sha))) && host.hash(body) == sha
    requires env.script(CreateUrl(cfg.storageUrl, sha), 0)
               == AttemptEnv(Response(200, body, false), FsFaults(false, false, false))
    ensures var first := WorkerStep(cfg, host, w, sha, env);
      && first == Emitted(DownStat(|body|, env.elapsed, DownOk), first.world, 1)
      && WorkerStep(cfg, host, first.world, sha, env2) == Emitted(DownStat(0, 0, DownSkip), first.world, 0)
  {
  }
}
